=== FILE: README.md ===
# Virtual drawing: gesture state machine

A Dafny model of the drawing core of a hand-gesture drawing program. A camera
frame goes through a hand-landmark detector that reports at most one left and
one right hand, each as 21 integer pixel keypoints (`HandGesture.process_frame`, hand_gesture.py:22-60). Each frame, a gesture
interpreter turns these keypoints into calls on a `VirtualDrawing` object:

- the left hand sets the radius of the current tool from the thumb–index
  spread and clears the canvas on a thumb–middle pinch;
- the right hand toggles brush/eraser and cycles the colour on slow pinches,
  then draws a segment from the previous index fingertip to the current one.

The model is purely functional. `Drawing.VirtualDrawing` is an immutable
record of the object's fields, and each of its methods except `save_canvas` and `get_display_frame` (see "## Left out") is a pure function.
`Gestures.Step` is the loop body as a function from (state, optional left
hand, optional right hand) to the next state. Here the state is the drawing
tool plus `last_right_index_pos`.

The canvas is abstract: it is the log of segments drawn since it was last
blank. The history is a sequence of such canvases. With this representation,
`Drawing.Valid` is an invariant of every operation:

- the colour index is inside the three-entry palette;
- the colour is the palette entry that the index selects;
- history entry `i` is the canvas after the first `i + 1` segments.

All keypoints are integers, so every distance test is stated on squared
distances:

- `dist < 30` becomes `SqDist < 900`;
- `speed <= 20` becomes `SqDist <= 400`;
- the radius `int(max(lo, min(hi, dist)))` becomes
  `Clamp(FloorSqrt(SqDist), lo, hi)`.

`GestureReference` writes both hand branches as the source writes them, with
real distances. It proves that they equal the integer steps for any
non-negative real root of the squared distances.

Modules:

- `Options`: `Option`;
- `Geometry`: points, squared distance, floor square root, clamp, truncation,
  and the root lemmas;
- `Drawing`: `virtual_drawing.py`;
- `Gestures`: `run_virtual_drawing.py` lines 13-24 and 26-92;
- `GestureReference`: real-valued transcription and equivalence;
- `GestureScenarios`: concrete situations.

The loop never resets `last_right_index_pos` when no right hand is seen
(run_virtual_drawing.py:59-92), so a returning right hand draws a segment
from where it was last seen (`GestureScenarios.ReturningRightHandJoinsOldPosition`).

The comment at run_virtual_drawing.py:53 says that index–middle contact
clears the canvas, but lines 45 and 54 test the thumb–middle distance. The
model follows the code (`Gestures.LeftHandStep`).

## Model

| member | source | states |
|---|---|---|
| `Drawing.Init` | virtual_drawing.py:5-32 | with the defaults 1920×1080, brush radius 5 and eraser radius 20 for omitted arguments, a fresh drawing is in eraser mode, has colour index 0 with colour `colors[0]`, a blank canvas, an empty history and the given radii, and satisfies the invariant |
| `Drawing.ClearCanvas` | virtual_drawing.py:34-37 | the canvas becomes blank and the history empty; mode, colour and radii are unchanged |
| `Drawing.DrawLine` | virtual_drawing.py:39-45 | exactly one snapshot is appended, equal to the new canvas; the new segment is black with the eraser radius in eraser mode, otherwise the current colour with the brush radius; nothing else changes; the invariant is kept |
| `Drawing.Undo` | virtual_drawing.py:47-51 | with at most one snapshot nothing changes; otherwise the history loses its newest entry and the canvas becomes the new newest entry; the invariant is kept |
| `Drawing.ToggleEraserMode` | virtual_drawing.py:53-55 | the mode is negated and nothing else changes |
| `Drawing.NextColor` | virtual_drawing.py:57-60 | from any index, the index lands in the palette and the colour matches it; the index moves one step and wraps from the last entry to 0; nothing else changes |
| `Drawing.SetBrushRadius` | virtual_drawing.py:62-64 | only the brush radius changes, to the argument truncated toward zero |
| `Drawing.SetEraserRadius` | virtual_drawing.py:66-68 | only the eraser radius changes, to the argument truncated toward zero |
| `Drawing.ToggleTwice` | virtual_drawing.py:55 | toggling the mode twice is the identity |
| `Drawing.NextColorCycle` | virtual_drawing.py:57-60 | advancing the colour three times (the palette size) restores the original drawing |
| `Drawing.UndoAfterClear` | virtual_drawing.py:36-37 | an undo right after a clear is a no-op |
| `Drawing.UndoAfterDrawLine` | virtual_drawing.py:45-51 | when the history already held a snapshot, undo exactly reverses a stroke |
| `Drawing.FirstStrokeStays` | virtual_drawing.py:49 | the first stroke after a clear cannot be undone, because undo needs two snapshots |
| `Drawing.UndoTimesKeepsPrefix` | virtual_drawing.py:49-51 | `k` undos leave the first `max(1, n - k)` segments and snapshots, and never go below one |
| `Geometry.SqDist` | run_virtual_drawing.py:42 | the squared distance is a natural that is zero exactly when the points coincide |
| `Geometry.SqDistSymmetric` | run_virtual_drawing.py:42 | distance does not depend on the order of the two points |
| `Geometry.FloorSqrt` | run_virtual_drawing.py:42 | the result is the natural `r` with `r*r <= n < (r+1)*(r+1)` |
| `Geometry.FloorSqrtUnique` | run_virtual_drawing.py:42 | any natural with those bounds is the floor square root |
| `Geometry.Clamp` | run_virtual_drawing.py:49-51 | the integer clamp lies in `[lo, hi]`, keeps values already in range, sends values below `lo` to `lo` and values above `hi` to `hi` |
| `Geometry.ClampReal` | run_virtual_drawing.py:49-51 | the same for reals: in `[lo, hi]`, in-range values kept, values below `lo` sent to `lo` and above `hi` to `hi` |
| `Geometry.Trunc` | virtual_drawing.py:64 | `int(x)` has the sign of `x` and is within 1 of it, toward zero |
| `Geometry.RootBelow` | run_virtual_drawing.py:54 | a root is below an integer threshold exactly when its square is below the threshold's square |
| `Geometry.RootAtMost` | run_virtual_drawing.py:78 | a root is at most an integer bound exactly when its square is at most the bound's square |
| `Geometry.RootFloor` | run_virtual_drawing.py:42 | the floor of the real root is the integer floor square root |
| `Geometry.RadiusFromRoot` | run_virtual_drawing.py:48-51 | truncating the clamped real distance gives the clamped floor square root |
| `Gestures.Start` | run_virtual_drawing.py:13-24 | the loop starts in eraser mode with an empty history, radii 5 and 20, and no previous right fingertip |
| `Gestures.LeftHandStep` | run_virtual_drawing.py:35-56 | in eraser mode the eraser radius ends in [10, 50] and the brush radius is unchanged, otherwise the brush radius ends in [5, 20] and the eraser radius is unchanged; a thumb–middle pinch clears canvas and history, otherwise they are untouched; mode and colour are unchanged |
| `Gestures.RightHandStep` | run_virtual_drawing.py:59-92 | the fingertip is remembered; a fast move changes neither mode nor colour; a slow move flips the mode exactly on a thumb–index pinch and advances the colour on a thumb–middle pinch; exactly one segment in the current tool, from the previous fingertip, is drawn and snapshotted exactly when a previous fingertip existed; radii are unchanged |
| `Gestures.Step` | run_virtual_drawing.py:34-92 | without a right hand the remembered fingertip, the mode and the colour are unchanged; with one, the fingertip is remembered; with no hands nothing changes; the history grows by at most one; with a left hand the current tool's radius ends in its range and the other radius is unchanged, without one both radii are unchanged; a left thumb–middle pinch leaves at most one snapshot |
| `Gestures.SquaredSpeed` | run_virtual_drawing.py:72-78 | the squared speed is 0 without a previous fingertip and otherwise the squared distance from it, and for every real speed whose square it is, `speed <= 20` holds exactly when it is at most 400 |
| `Gestures.Run` | run_virtual_drawing.py:26-92 | over any run of frames the history grows by at most one snapshot per frame, and frames without a right hand keep the remembered fingertip, the mode and the colour |
| `Gestures.StepPreservesSessionValid` | run_virtual_drawing.py:34-92 | one frame keeps the drawing invariant and both radii in range |
| `Gestures.RunPreservesSessionValid` | run_virtual_drawing.py:26-92 | any run of frames keeps the drawing invariant and both radii in range |
| `Gestures.StartIsSessionValid` | run_virtual_drawing.py:13-18 | the loop's starting state satisfies the invariant and its radii are in range |
| `GestureReference.LeftHandStepMatchesReal` | run_virtual_drawing.py:35-56 | the integer left-hand step equals the source's real-valued branch for any roots of the squared distances |
| `GestureReference.RightHandStepMatchesReal` | run_virtual_drawing.py:59-92 | the integer right-hand step equals the source's real-valued branch, with speed 0 when there is no previous fingertip |
| `GestureScenarios.LeftSpreadOfThirtySetsMaxBrush` | run_virtual_drawing.py:42-51 | thumb (100,100) and index (100,130) in brush mode give brush radius 20 |
| `GestureScenarios.FirstRightPinchLeavesEraserMode` | run_virtual_drawing.py:72-82 | thumb (50,50) and index (50,70) on the first right-hand frame switch the initial eraser mode to brush |
| `GestureScenarios.SlowMoveDrawsGreenSegment` | run_virtual_drawing.py:89-92 | moving from (200,200) to (210,200) in green brush mode draws one green segment of brush thickness and adds one snapshot |
| `GestureScenarios.FastMoveIgnoresPinches` | run_virtual_drawing.py:77-87 | a 21-pixel jump ignores both pinches |
| `GestureScenarios.BothPinchesInOneFrame` | run_virtual_drawing.py:78-87 | a slow double pinch flips the mode and advances the colour in the same frame |
| `GestureScenarios.ClearThenStrokeLeavesOneSnapshot` | run_virtual_drawing.py:35-92 | a left clear followed by a right stroke in one frame leaves one snapshot holding that stroke |
| `GestureScenarios.ReturningRightHandJoinsOldPosition` | run_virtual_drawing.py:59-92 | a right hand that vanishes and returns is joined to its last position, because the position is not reset |

## Left out

- hand_gesture.py is not part of this model. `HandGesture` wraps the hand-landmark model and drawing utilities. Its output is taken as an optional hand of exactly 21 integer keypoints (`Gestures.Hand`), which is what it always yields.
- Pixel rasterisation of `cv2.line` is not modelled. The canvas is a segment log, so two canvases that differ here may hold the same pixels. Clipping to the screen size is also not modelled.
- `get_display_frame` (virtual_drawing.py:74-78) is not modelled: it is floating-point blending used only for display.
- `save_canvas` and the timestamped file name (virtual_drawing.py:70-72, run_virtual_drawing.py:110-112) are not modelled: they are file I/O and wall-clock time.
- The `cv2.waitKey(300)` pauses after a clear, a toggle or a colour change (run_virtual_drawing.py:56, 82, 87) are not modelled. They block the loop and leave no state behind.
- Camera capture, `imshow`, `putText` and key polling (run_virtual_drawing.py:20-29, 94-118) are not modelled: they are I/O.
- Floating-point rounding of `** 0.5` is not modelled. Each distance is treated as the exact real root of an integer. At pixel magnitudes, correctly rounded square roots agree with this at every threshold used.
- `undo` is modelled even though the main loop never calls it.

=== FILE: geometry.dfy ===
/** Integer pixel geometry behind the gesture thresholds.

    `HandGesture.process_frame` turns every keypoint into integer pixel
    coordinates (hand_gesture.py:48), so each Euclidean distance the interpreter computes is
    the square root of a natural number. This module keeps everything in
    integers: squared distances, an integer floor square root, and the clamp and
    truncation that turn a distance into a radius. The lemmas at the end show
    that the integer formulation agrees with the real-valued one for every
    non-negative real whose square is the squared distance. */
module Geometry {

  /** A keypoint in frame pixel coordinates. */
  datatype Point = Point(x: int, y: int)

  /** Squared Euclidean distance between two keypoints. */
  function SqDist(p: Point, q: Point): (r: nat)
    ensures r == 0 <==> p == q
  {
    var dx := p.x - q.x;
    var dy := p.y - q.y;
    SquareNonNegative(dx);
    SquareNonNegative(dy);
    assert dx * dx + dy * dy == 0 ==> dx == 0 && dy == 0 by {
      if dx != 0 { SquarePositive(dx); }
      if dy != 0 { SquarePositive(dy); }
    }
    dx * dx + dy * dy
  }

  lemma SquareNonNegative(a: int)
    ensures a * a >= 0
  {
  }

  lemma SquarePositive(a: int)
    requires a != 0
    ensures a * a > 0
  {
  }

  /** Distance does not depend on which keypoint is named first. */
  lemma SqDistSymmetric(p: Point, q: Point)
    ensures SqDist(p, q) == SqDist(q, p)
  {
  }

  /** Squares of naturals are monotone. */
  lemma SquareMonotone(a: nat, b: nat)
    requires a <= b
    ensures a * a <= b * b
  {
  }

  /** The largest natural whose square does not exceed `n`. */
  function FloorSqrt(n: nat): (r: nat)
    ensures r * r <= n < (r + 1) * (r + 1)
  {
    if n == 0 then 0
    else
      var s := FloorSqrt(n - 1);
      if (s + 1) * (s + 1) <= n then
        assert n <= (s + 1) * (s + 1);
        SquareMonotone(s + 1, s + 2);
        s + 1
      else
        s
  }

  /** The bounds in FloorSqrt's contract pin its result down: any natural
      with the same bounds is FloorSqrt itself. */
  lemma FloorSqrtUnique(n: nat, k: nat)
    requires k * k <= n < (k + 1) * (k + 1)
    ensures k == FloorSqrt(n)
  {
    var r := FloorSqrt(n);
    if k < r {
      SquareMonotone(k + 1, r);
    } else if r < k {
      SquareMonotone(r + 1, k);
    }
  }

  /** Python's `max(lo, min(hi, v))` on integers. */
  function Clamp(v: int, lo: int, hi: int): (r: int)
    ensures lo <= hi ==> lo <= r <= hi
    ensures lo <= v <= hi ==> r == v
    ensures v < lo ==> r == lo
    ensures lo <= hi < v ==> r == hi
    ensures r == v || r == lo || r == hi
  {
    var m := if hi < v then hi else v;
    if m < lo then lo else m
  }

  /** Python's `max(lo, min(hi, v))` on reals. */
  function ClampReal(v: real, lo: real, hi: real): (r: real)
    ensures lo <= hi ==> lo <= r <= hi
    ensures lo <= v <= hi ==> r == v
    ensures v < lo ==> r == lo
    ensures lo <= hi < v ==> r == hi
    ensures r == v || r == lo || r == hi
  {
    var m := if hi < v then hi else v;
    if m < lo then lo else m
  }

  /** Python's `int(x)` on a number: truncation toward zero. */
  function Trunc(x: real): (r: int)
    ensures 0.0 <= x ==> 0 <= r && r as real <= x < r as real + 1.0
    ensures x < 0.0 ==> r <= 0 && r as real - 1.0 < x <= r as real
  {
    if 0.0 <= x then x.Floor else -((-x).Floor)
  }

  /** A non-negative real `d` with `d * d == n` is the Euclidean distance
      whose square is `n`. */
  ghost predicate IsRootOf(d: real, n: nat)
  {
    0.0 <= d && d * d == n as real
  }

  /** Comparing a root against a non-negative integer bound `t` is the same
      as comparing its square against `t * t`, in both directions. */
  lemma RootBelow(n: nat, d: real, t: nat)
    requires IsRootOf(d, n)
    ensures d < t as real <==> n < t * t
  {
    var tr := t as real;
    assert (t * t) as real == tr * tr;
    if d < tr {
      calc {
        d * d;
      <=  { assert d * (tr - d) >= 0.0; }
        d * tr;
      <   { assert tr * (tr - d) > 0.0; }
        tr * tr;
      }
    } else {
      calc {
        tr * tr;
      <=  { assert tr * (d - tr) >= 0.0; }
        tr * d;
      <=  { assert d * (d - tr) >= 0.0; }
        d * d;
      }
    }
  }

  lemma RootAtMost(n: nat, d: real, t: nat)
    requires IsRootOf(d, n)
    ensures d <= t as real <==> n <= t * t
  {
    var tr := t as real;
    assert (t * t) as real == tr * tr;
    if d <= tr {
      assert d * d <= d * tr;
      assert d * tr <= tr * tr;
    } else {
      calc {
        tr * tr;
      <=  { assert tr * (d - tr) >= 0.0; }
        tr * d;
      <  { assert d * (d - tr) > 0.0; }
        d * d;
      }
    }
  }

  /** The integer floor square root is the floor of the real root. */
  lemma RootFloor(n: nat, d: real)
    requires IsRootOf(d, n)
    ensures d.Floor == FloorSqrt(n)
  {
    var k := FloorSqrt(n);
    RootBelow(n, d, k);
    RootBelow(n, d, k + 1);
  }

  /** Clamping the real distance and truncating it, as the source does,
      gives the same radius as clamping the integer floor square root. */
  lemma RadiusFromRoot(n: nat, d: real, lo: nat, hi: nat)
    requires IsRootOf(d, n)
    requires lo <= hi
    ensures Trunc(ClampReal(d, lo as real, hi as real)) == Clamp(FloorSqrt(n), lo, hi)
  {
    var k := FloorSqrt(n);
    RootFloor(n, d);
    assert k as real <= d < k as real + 1.0;
  }
}

=== FILE: gesture_reference.dfy ===
/** The hand steps written the way the source writes them, with real-valued
    Euclidean distances, and the proof that the integer step of Gestures
    agrees with them whatever non-negative root each distance is given.

    Floating point is not modelled: a distance here is the exact real root. */
module GestureReference {
  import opened Options
  import opened Geometry
  import opened Drawing
  import opened Gestures

  /** The left-hand branch with `distance` and `middle_distance` as reals. */
  ghost function LeftHandStepReal(d: VirtualDrawing, distance: real, middleDistance: real): VirtualDrawing
  {
    var sized :=
      if d.eraserMode then SetEraserRadius(d, ClampReal(distance, 10.0, 50.0))
      else SetBrushRadius(d, ClampReal(distance, 5.0, 20.0));
    if middleDistance < 30.0 then ClearCanvas(sized) else sized
  }

  /** The right-hand branch with the two pinch distances and the distance
      the index fingertip moved as reals; `moved` is read only when there is
      a previous position, and the speed is 0.0 otherwise. */
  ghost function RightHandStepReal(s: Session, h: Hand, thumbIndex: real, thumbMiddle: real, moved: real): Session
  {
    var tip := h[IndexTip];
    var speed := if s.lastRightIndex.Some? then moved else 0.0;
    var d1 := if speed <= 20.0 && thumbIndex < 30.0 then ToggleEraserMode(s.tool) else s.tool;
    var d2 := if speed <= 20.0 && thumbMiddle < 30.0 then NextColor(d1) else d1;
    var d3 := if s.lastRightIndex.Some? then DrawLine(d2, s.lastRightIndex.value, tip) else d2;
    Session(d3, Some(tip))
  }

  /** The integer left-hand step is the source's real-valued one. */
  lemma LeftHandStepMatchesReal(d: VirtualDrawing, h: Hand, distance: real, middleDistance: real)
    requires IsRootOf(distance, SqDist(h[ThumbTip], h[IndexTip]))
    requires IsRootOf(middleDistance, SqDist(h[ThumbTip], h[MiddleTip]))
    ensures LeftHandStep(d, h) == LeftHandStepReal(d, distance, middleDistance)
  {
    var n := SqDist(h[ThumbTip], h[IndexTip]);
    RadiusFromRoot(n, distance, EraserMin, EraserMax);
    RadiusFromRoot(n, distance, BrushMin, BrushMax);
    RootBelow(SqDist(h[ThumbTip], h[MiddleTip]), middleDistance, PinchDistance);
  }

  /** The integer right-hand step is the source's real-valued one. */
  lemma RightHandStepMatchesReal(s: Session, h: Hand, thumbIndex: real, thumbMiddle: real, moved: real)
    requires IsRootOf(thumbIndex, SqDist(h[ThumbTip], h[IndexTip]))
    requires IsRootOf(thumbMiddle, SqDist(h[ThumbTip], h[MiddleTip]))
    requires s.lastRightIndex.Some? ==> IsRootOf(moved, SqDist(s.lastRightIndex.value, h[IndexTip]))
    ensures RightHandStep(s, h) == RightHandStepReal(s, h, thumbIndex, thumbMiddle, moved)
  {
    RootBelow(SqDist(h[ThumbTip], h[IndexTip]), thumbIndex, PinchDistance);
    RootBelow(SqDist(h[ThumbTip], h[MiddleTip]), thumbMiddle, PinchDistance);
    if s.lastRightIndex.Some? {
      RootAtMost(SqDist(s.lastRightIndex.value, h[IndexTip]), moved, MaxPinchSpeed);
    }
  }
}

=== FILE: gesture_scenarios.dfy ===
/** Concrete situations of the gesture interpreter, stated for every hand
    that has the named fingertips where the situation puts them. */
module GestureScenarios {
  import opened Options
  import opened Geometry
  import opened Drawing
  import opened Gestures

  /** Left thumb at (100,100) and index at (100,130) are 30 pixels apart,
      so in brush mode the brush radius hits its maximum of 20. */
  lemma LeftSpreadOfThirtySetsMaxBrush(d: VirtualDrawing, h: Hand)
    requires !d.eraserMode
    requires h[ThumbTip] == Point(100, 100) && h[IndexTip] == Point(100, 130)
    ensures LeftHandStep(d, h).brushRadius == 20
  {
    assert SqDist(h[ThumbTip], h[IndexTip]) == 900;
    FloorSqrtUnique(900, 30);
  }

  /** On the first frame with a right hand, thumb (50,50) and index (50,70)
      are 20 pixels apart and the speed is 0, so the initial eraser mode
      turns into brush mode. */
  lemma FirstRightPinchLeavesEraserMode(h: Hand)
    requires h[ThumbTip] == Point(50, 50) && h[IndexTip] == Point(50, 70)
    ensures !Step(Start(), None, Some(h)).tool.eraserMode
  {
  }

  /** In brush mode with green selected, moving the right index fingertip
      from (200,200) to (210,200) without pinching draws one green segment
      of brush thickness between the two points. */
  lemma SlowMoveDrawsGreenSegment(s: Session, h: Hand)
    requires s.lastRightIndex == Some(Point(200, 200)) && h[IndexTip] == Point(210, 200)
    requires !s.tool.eraserMode && s.tool.colorIndex == 0 && s.tool.color == Palette[0]
    requires !Pinched(h[ThumbTip], h[IndexTip]) && !Pinched(h[ThumbTip], h[MiddleTip])
    ensures var r := RightHandStep(s, h).tool;
            && |r.history| == |s.tool.history| + 1
            && r.canvas == s.tool.canvas + [Segment(Point(200, 200), Point(210, 200), Color(0, 255, 0), s.tool.brushRadius)]
  {
  }

  /** A right-hand stroke fast enough is never a pinch: a jump of more than
      20 pixels leaves mode and colour alone even with both pinches made. */
  lemma FastMoveIgnoresPinches(s: Session, h: Hand)
    requires s.lastRightIndex == Some(Point(0, 0)) && h[IndexTip] == Point(21, 0)
    requires h[ThumbTip] == h[IndexTip] && h[MiddleTip] == h[IndexTip]
    ensures RightHandStep(s, h).tool.eraserMode == s.tool.eraserMode
    ensures RightHandStep(s, h).tool.colorIndex == s.tool.colorIndex
  {
  }

  /** A slow frame with the thumb touching both index and middle fingertips
      flips the mode and advances the colour together. */
  lemma BothPinchesInOneFrame(s: Session, h: Hand)
    requires ColorConsistent(s.tool)
    requires SlowEnough(s.lastRightIndex, h[IndexTip])
    requires Pinched(h[ThumbTip], h[IndexTip]) && Pinched(h[ThumbTip], h[MiddleTip])
    ensures var r := RightHandStep(s, h).tool;
            && r.eraserMode != s.tool.eraserMode
            && r.colorIndex == (s.tool.colorIndex + 1) % |Palette|
            && r.color == Palette[r.colorIndex]
  {
  }

  /** The left hand is handled first: a clear followed by a right-hand
      stroke in the same frame leaves exactly that stroke in the history. */
  lemma ClearThenStrokeLeavesOneSnapshot(s: Session, left: Hand, right: Hand)
    requires Pinched(left[ThumbTip], left[MiddleTip])
    requires s.lastRightIndex.Some?
    ensures var r := Step(s, Some(left), Some(right)).tool;
            && |r.history| == 1
            && r.canvas == [Segment(s.lastRightIndex.value, right[IndexTip], PenColor(r), PenThickness(r))]
  {
  }

  /** A right hand that disappears does not forget its last fingertip: on
      its return the next frame joins the old position to the new one. */
  lemma ReturningRightHandJoinsOldPosition(s: Session, right: Hand, back: Hand)
    ensures var s1 := Step(s, None, Some(right));
            var s2 := Step(s1, None, None);
            var s3 := Step(s2, None, Some(back));
            s3.tool.canvas[|s3.tool.canvas| - 1].start == right[IndexTip]
            && s3.tool.canvas[|s3.tool.canvas| - 1].end == back[IndexTip]
  {
  }
}

=== FILE: gestures.dfy ===
/** The per-frame gesture interpretation of run_virtual_drawing.py, as a pure
    step over the drawing tool and the remembered right index fingertip.

    Every distance test of the source is on the square root of an integer, so
    it is stated here on squared distances: `dist < 30` is `SqDist < 900` and
    `speed <= 20` is `SqDist <= 400` (Geometry.RootBelow, Geometry.RootAtMost),
    and a radius `int(max(lo, min(hi, dist)))` is `Clamp(FloorSqrt(SqDist), lo, hi)`
    (Geometry.RadiusFromRoot). */
module Gestures {
  import opened Options
  import opened Geometry
  import opened Drawing

  /** Landmarks per hand, and the fingertips the interpreter reads. */
  const LandmarkCount := 21
  const ThumbTip := 4
  const IndexTip := 8
  const MiddleTip := 12

  /** One detected hand: its landmarks in the detector's fixed order. */
  type Hand = h: seq<Point> | |h| == LandmarkCount witness seq(21, _ => Point(0, 0))

  /** Two fingertips closer than this many pixels are pinched. */
  const PinchDistance := 30
  /** A fingertip that moved more than this many pixels since the previous
      frame is in transit, and its pinches are ignored. */
  const MaxPinchSpeed := 20

  /** The radius ranges of the two tools, in pixels. */
  const EraserMin := 10
  const EraserMax := 50
  const BrushMin := 5
  const BrushMax := 20

  /** The interpreter's state between frames: the drawing tool and the
      right index fingertip of the last frame that had a right hand. */
  datatype Session = Session(tool: VirtualDrawing, lastRightIndex: Option<Point>)

  /** The state the main loop starts from (run_virtual_drawing.py:13-24). */
  function Start(): (s: Session)
    ensures s.lastRightIndex == None
    ensures Valid(s.tool) && s.tool.eraserMode && s.tool.history == []
    ensures s.tool.brushRadius == 5 && s.tool.eraserRadius == 20
  {
    Session(Init(1920, 1080, 5, 20), None)
  }

  /** Two fingertips are pinched when they are less than PinchDistance apart. */
  predicate Pinched(a: Point, b: Point)
  {
    SqDist(a, b) < PinchDistance * PinchDistance
  }

  /** Squared speed of the right index fingertip: zero without a previous
      position. For every real speed whose square it is, the source's gate
      `speed <= 20` holds exactly when it is at most 400. */
  function SquaredSpeed(last: Option<Point>, tip: Point): (r: nat)
    ensures last.None? ==> r == 0
    ensures last.Some? ==> r == SqDist(last.value, tip) && (r == 0 <==> last.value == tip)
    ensures forall speed: real {:trigger IsRootOf(speed, r)} :: IsRootOf(speed, r) ==>
              (speed <= MaxPinchSpeed as real <==> r <= MaxPinchSpeed * MaxPinchSpeed)
  {
    var r := match last
      case None => 0
      case Some(p) => SqDist(p, tip);
    assert forall speed: real {:trigger IsRootOf(speed, r)} :: IsRootOf(speed, r) ==>
             (speed <= MaxPinchSpeed as real <==> r <= MaxPinchSpeed * MaxPinchSpeed) by {
      forall speed: real | IsRootOf(speed, r)
        ensures speed <= MaxPinchSpeed as real <==> r <= MaxPinchSpeed * MaxPinchSpeed
      {
        RootAtMost(r, speed, MaxPinchSpeed);
      }
    }
    r
  }

  /** Pinches count only when the fingertip moved at most MaxPinchSpeed. */
  predicate SlowEnough(last: Option<Point>, tip: Point)
  {
    SquaredSpeed(last, tip) <= MaxPinchSpeed * MaxPinchSpeed
  }

  /** The radius the thumb-index distance selects, clamped into [lo, hi]. */
  function RadiusFor(thumb: Point, index: Point, lo: int, hi: int): int
  {
    Clamp(FloorSqrt(SqDist(thumb, index)), lo, hi)
  }

  /** Left hand (run_virtual_drawing.py:35-56): the thumb-index spread sets
      the radius of the current tool, and a thumb-middle pinch clears. The
      contract bounds the radius; its exact value, `int(max(lo, min(hi,
      distance)))`, is stated by GestureReference.LeftHandStepMatchesReal. */
  function LeftHandStep(d: VirtualDrawing, h: Hand): (r: VirtualDrawing)
    ensures d.eraserMode ==> EraserMin <= r.eraserRadius <= EraserMax && r.brushRadius == d.brushRadius
    ensures !d.eraserMode ==> BrushMin <= r.brushRadius <= BrushMax && r.eraserRadius == d.eraserRadius
    ensures r.eraserMode == d.eraserMode && r.colorIndex == d.colorIndex && r.color == d.color
    ensures Pinched(h[ThumbTip], h[MiddleTip]) ==> r.canvas == BlankCanvas && r.history == []
    ensures !Pinched(h[ThumbTip], h[MiddleTip]) ==> r.canvas == d.canvas && r.history == d.history
    ensures r.(eraserRadius := d.eraserRadius, brushRadius := d.brushRadius, canvas := d.canvas, history := d.history) == d
    ensures Valid(d) ==> Valid(r)
  {
    var thumb := h[ThumbTip];
    var sized :=
      if d.eraserMode then
        SetEraserRadius(d, RadiusFor(thumb, h[IndexTip], EraserMin, EraserMax) as real)
      else
        SetBrushRadius(d, RadiusFor(thumb, h[IndexTip], BrushMin, BrushMax) as real);
    if Pinched(thumb, h[MiddleTip]) then ClearCanvas(sized) else sized
  }

  /** Right hand (run_virtual_drawing.py:59-92): slow pinches toggle the mode
      and advance the colour; then a segment joins the previous index
      fingertip to this one, and this fingertip is remembered. */
  function RightHandStep(s: Session, h: Hand): (r: Session)
    ensures r.lastRightIndex == Some(h[IndexTip])
    ensures !SlowEnough(s.lastRightIndex, h[IndexTip]) ==>
              r.tool.eraserMode == s.tool.eraserMode && r.tool.colorIndex == s.tool.colorIndex && r.tool.color == s.tool.color
    ensures SlowEnough(s.lastRightIndex, h[IndexTip]) ==>
              (r.tool.eraserMode != s.tool.eraserMode <==> Pinched(h[ThumbTip], h[IndexTip]))
    ensures SlowEnough(s.lastRightIndex, h[IndexTip]) && Pinched(h[ThumbTip], h[MiddleTip]) ==>
              r.tool.colorIndex == NextColor(s.tool).colorIndex && r.tool.color == NextColor(s.tool).color
    ensures !(SlowEnough(s.lastRightIndex, h[IndexTip]) && Pinched(h[ThumbTip], h[MiddleTip])) ==>
              r.tool.colorIndex == s.tool.colorIndex && r.tool.color == s.tool.color
    ensures r.tool.brushRadius == s.tool.brushRadius && r.tool.eraserRadius == s.tool.eraserRadius
    ensures s.lastRightIndex.None? ==> r.tool.canvas == s.tool.canvas && r.tool.history == s.tool.history
    ensures s.lastRightIndex.Some? ==>
              |r.tool.history| == |s.tool.history| + 1 && r.tool.history[..|s.tool.history|] == s.tool.history
              && r.tool.canvas == s.tool.canvas + [Segment(s.lastRightIndex.value, h[IndexTip], PenColor(r.tool), PenThickness(r.tool))]
              && r.tool.history[|s.tool.history|] == r.tool.canvas
    ensures r.tool.(eraserMode := s.tool.eraserMode, colorIndex := s.tool.colorIndex, color := s.tool.color,
                    canvas := s.tool.canvas, history := s.tool.history) == s.tool
    ensures Valid(s.tool) ==> Valid(r.tool)
  {
    var tip := h[IndexTip];
    var slow := SlowEnough(s.lastRightIndex, tip);
    var d1 := if slow && Pinched(h[ThumbTip], tip) then ToggleEraserMode(s.tool) else s.tool;
    var d2 := if slow && Pinched(h[ThumbTip], h[MiddleTip]) then NextColor(d1) else d1;
    var d3 := if s.lastRightIndex.Some? then DrawLine(d2, s.lastRightIndex.value, tip) else d2;
    Session(d3, Some(tip))
  }

  /** One frame: the left hand first, then the right hand. */
  function Step(s: Session, left: Option<Hand>, right: Option<Hand>): (r: Session)
    ensures right.None? ==> r.lastRightIndex == s.lastRightIndex
    ensures right.None? ==>
              r.tool.eraserMode == s.tool.eraserMode && r.tool.colorIndex == s.tool.colorIndex && r.tool.color == s.tool.color
    ensures right.Some? ==> r.lastRightIndex == Some(right.value[IndexTip])
    ensures left.None? && right.None? ==> r == s
    ensures left.Some? && s.tool.eraserMode ==>
              EraserMin <= r.tool.eraserRadius <= EraserMax && r.tool.brushRadius == s.tool.brushRadius
    ensures left.Some? && !s.tool.eraserMode ==>
              BrushMin <= r.tool.brushRadius <= BrushMax && r.tool.eraserRadius == s.tool.eraserRadius
    ensures left.None? ==> r.tool.brushRadius == s.tool.brushRadius && r.tool.eraserRadius == s.tool.eraserRadius
    ensures left.Some? && Pinched(left.value[ThumbTip], left.value[MiddleTip]) ==> |r.tool.history| <= 1
    ensures |r.tool.history| <= |s.tool.history| + 1
    ensures right.Some? && s.lastRightIndex.Some? ==>
              1 <= |r.tool.history| && r.tool.history[|r.tool.history| - 1] == r.tool.canvas
    ensures r.tool.screenWidth == s.tool.screenWidth && r.tool.screenHeight == s.tool.screenHeight
    ensures Valid(s.tool) ==> Valid(r.tool)
  {
    var tool := if left.Some? then LeftHandStep(s.tool, left.value) else s.tool;
    var s1 := s.(tool := tool);
    if right.Some? then RightHandStep(s1, right.value) else s1
  }

  /** The radii stay inside their ranges. */
  predicate RadiiInRange(d: VirtualDrawing)
  {
    BrushMin <= d.brushRadius <= BrushMax && EraserMin <= d.eraserRadius <= EraserMax
  }

  /** What the main loop keeps true from frame to frame. */
  predicate SessionValid(s: Session)
  {
    Valid(s.tool) && RadiiInRange(s.tool)
  }

  /** The main loop over a run of frames, each the pair of hands detected. */
  function Run(s: Session, frames: seq<(Option<Hand>, Option<Hand>)>): (r: Session)
    ensures |r.tool.history| <= |s.tool.history| + |frames|
    ensures (forall i :: 0 <= i < |frames| ==> frames[i].1.None?) ==>
              r.lastRightIndex == s.lastRightIndex && r.tool.eraserMode == s.tool.eraserMode
              && r.tool.colorIndex == s.tool.colorIndex && r.tool.color == s.tool.color
    decreases |frames|
  {
    if frames == [] then s
    else Run(Step(s, frames[0].0, frames[0].1), frames[1..])
  }

  /** A frame keeps the drawing valid and the radii in range. */
  lemma StepPreservesSessionValid(s: Session, left: Option<Hand>, right: Option<Hand>)
    requires SessionValid(s)
    ensures SessionValid(Step(s, left, right))
  {
  }

  /** From the loop's starting state, every run of frames keeps the palette
      index in range, the colour matching it, the history tracking the
      canvas, and both radii inside their ranges. */
  lemma {:induction false} RunPreservesSessionValid(s: Session, frames: seq<(Option<Hand>, Option<Hand>)>)
    requires SessionValid(s)
    ensures SessionValid(Run(s, frames))
    decreases |frames|
  {
    if frames != [] {
      StepPreservesSessionValid(s, frames[0].0, frames[0].1);
      RunPreservesSessionValid(Step(s, frames[0].0, frames[0].1), frames[1..]);
    }
  }

  lemma StartIsSessionValid()
    ensures SessionValid(Start())
  {
  }
}

=== FILE: options.dfy ===
/** The optional value used for "no hand this frame" and "no previous
    fingertip position" (Python's `None`). */
module Options {

  datatype Option<+T> = None | Some(value: T)
}

=== FILE: virtual_drawing.dfy ===
/** The drawing tool of virtual_drawing.py: an immutable record standing for
    the `VirtualDrawing` object, and one pure function per method except
    `save_canvas` (file output) and `get_display_frame` (display blending),
    which are not part of this model.

    The pixel canvas is abstract. A canvas is the log of segments drawn on it
    since it was last blank, so two canvases that differ here may still hold
    the same pixels; everything the interpreter does to the canvas (draw one
    segment, fill it with black, restore a snapshot) is exact on this log. */
module Drawing {
  import opened Geometry

  /** A colour triple in OpenCV's blue-green-red order. */
  datatype Color = Color(blue: int, green: int, red: int)

  /** The colour the eraser paints with, and the colour of a blank canvas. */
  const Black := Color(0, 0, 0)

  /** The fixed palette: green, red, blue. */
  const Palette: seq<Color> := [Color(0, 255, 0), Color(0, 0, 255), Color(255, 0, 0)]

  /** One line drawn on the canvas, with the thickness it was drawn with. */
  datatype Segment = Segment(start: Point, end: Point, color: Color, thickness: int)

  /** The segments drawn since the canvas was last blank, oldest first. */
  type Canvas = seq<Segment>

  const BlankCanvas: Canvas := []

  datatype VirtualDrawing = VirtualDrawing(
    screenWidth: int,
    screenHeight: int,
    canvas: Canvas,
    colorIndex: int,
    color: Color,
    brushRadius: int,
    eraserRadius: int,
    eraserMode: bool,
    history: seq<Canvas>)

  /** The current colour is the palette entry the index selects. */
  predicate ColorConsistent(d: VirtualDrawing)
  {
    0 <= d.colorIndex < |Palette| && d.color == Palette[d.colorIndex]
  }

  /** Entry `i` of the history is the canvas after the first `i + 1`
      segments since the last clear, so the newest entry is the canvas. */
  predicate HistoryTracksCanvas(canvas: Canvas, history: seq<Canvas>)
  {
    |history| == |canvas| &&
    forall i :: 0 <= i < |history| ==> history[i] == canvas[..i + 1]
  }

  /** What every operation preserves. */
  predicate Valid(d: VirtualDrawing)
  {
    ColorConsistent(d) && HistoryTracksCanvas(d.canvas, d.history)
  }

  /** `VirtualDrawing.__init__`. */
  function Init(screenWidth: int := 1920, screenHeight: int := 1080,
                brushRadius: int := 5, eraserRadius: int := 20): (d: VirtualDrawing)
    ensures d.eraserMode
    ensures d.colorIndex == 0 && d.color == Palette[0]
    ensures d.canvas == BlankCanvas && d.history == []
    ensures d.brushRadius == brushRadius && d.eraserRadius == eraserRadius
    ensures d.screenWidth == screenWidth && d.screenHeight == screenHeight
    ensures Valid(d)
  {
    VirtualDrawing(screenWidth, screenHeight, BlankCanvas, 0, Palette[0],
                   brushRadius, eraserRadius, true, [])
  }

  /** `clear_canvas`: the canvas turns black and the history is dropped. */
  function ClearCanvas(d: VirtualDrawing): (r: VirtualDrawing)
    ensures r.canvas == BlankCanvas && r.history == []
    ensures r.(canvas := d.canvas, history := d.history) == d
    ensures ColorConsistent(d) ==> Valid(r)
  {
    d.(canvas := BlankCanvas, history := [])
  }

  /** The colour a stroke is drawn in: black when erasing. */
  function PenColor(d: VirtualDrawing): Color
  {
    if d.eraserMode then Black else d.color
  }

  /** The thickness a stroke is drawn with: the radius of the current tool. */
  function PenThickness(d: VirtualDrawing): int
  {
    if d.eraserMode then d.eraserRadius else d.brushRadius
  }

  /** `draw_line`: one segment with the current tool, then a snapshot of the
      resulting canvas is appended to the history. */
  function DrawLine(d: VirtualDrawing, start: Point, end: Point): (r: VirtualDrawing)
    ensures |r.history| == |d.history| + 1
    ensures r.history[..|d.history|] == d.history
    ensures r.history[|d.history|] == r.canvas
    ensures |r.canvas| == |d.canvas| + 1 && r.canvas[..|d.canvas|] == d.canvas
    ensures d.eraserMode ==> r.canvas[|d.canvas|] == Segment(start, end, Black, d.eraserRadius)
    ensures !d.eraserMode ==> r.canvas[|d.canvas|] == Segment(start, end, d.color, d.brushRadius)
    ensures r.(canvas := d.canvas, history := d.history) == d
    ensures Valid(d) ==> Valid(r)
  {
    var canvas := d.canvas + [Segment(start, end, PenColor(d), PenThickness(d))];
    assert HistoryTracksCanvas(d.canvas, d.history) ==> HistoryTracksCanvas(canvas, d.history + [canvas]) by {
      if HistoryTracksCanvas(d.canvas, d.history) {
        forall i | 0 <= i < |d.history| + 1
          ensures (d.history + [canvas])[i] == canvas[..i + 1]
        {
          if i < |d.history| {
            assert canvas[..i + 1] == d.canvas[..i + 1];
          }
        }
      }
    }
    d.(canvas := canvas, history := d.history + [canvas])
  }

  /** `undo`: with at least two snapshots, drop the newest and restore the
      one before it; otherwise nothing happens. */
  function Undo(d: VirtualDrawing): (r: VirtualDrawing)
    ensures |d.history| <= 1 ==> r == d
    ensures 1 < |d.history| ==> |r.history| == |d.history| - 1 && r.history == d.history[..|r.history|]
    ensures 1 < |d.history| ==> r.canvas == r.history[|r.history| - 1]
    ensures r.(canvas := d.canvas, history := d.history) == d
    ensures Valid(d) ==> Valid(r)
  {
    if |d.history| > 1 then
      var history := d.history[..|d.history| - 1];
      var canvas := history[|history| - 1];
      assert Valid(d) ==> HistoryTracksCanvas(canvas, history) by {
        if Valid(d) {
          assert canvas == d.canvas[..|history|];
          forall i | 0 <= i < |history|
            ensures history[i] == canvas[..i + 1]
          {
            assert canvas[..i + 1] == d.canvas[..i + 1];
          }
        }
      }
      d.(canvas := canvas, history := history)
    else
      d
  }

  /** `toggle_eraser_mode`. */
  function ToggleEraserMode(d: VirtualDrawing): (r: VirtualDrawing)
    ensures r.eraserMode != d.eraserMode
    ensures r.(eraserMode := d.eraserMode) == d
    ensures Valid(d) ==> Valid(r)
  {
    d.(eraserMode := !d.eraserMode)
  }

  /** `next_color`: the index moves one step round the palette and the
      colour follows it. Python's `%` and Dafny's agree here because the
      divisor is positive, so the index lands in the palette from any start. */
  function NextColor(d: VirtualDrawing): (r: VirtualDrawing)
    ensures ColorConsistent(r)
    ensures 0 <= d.colorIndex < |Palette| - 1 ==> r.colorIndex == d.colorIndex + 1
    ensures d.colorIndex == |Palette| - 1 ==> r.colorIndex == 0
    ensures r.(colorIndex := d.colorIndex, color := d.color) == d
    ensures HistoryTracksCanvas(d.canvas, d.history) ==> Valid(r)
  {
    var i := (d.colorIndex + 1) % |Palette|;
    d.(colorIndex := i, color := Palette[i])
  }

  /** `set_brush_radius`: stores the argument truncated toward zero. */
  function SetBrushRadius(d: VirtualDrawing, radius: real): (r: VirtualDrawing)
    ensures 0.0 <= radius ==> 0 <= r.brushRadius && r.brushRadius as real <= radius < r.brushRadius as real + 1.0
    ensures radius < 0.0 ==> r.brushRadius <= 0 && r.brushRadius as real - 1.0 < radius <= r.brushRadius as real
    ensures r.(brushRadius := d.brushRadius) == d
    ensures Valid(d) ==> Valid(r)
  {
    d.(brushRadius := Trunc(radius))
  }

  /** `set_eraser_radius`: stores the argument truncated toward zero. */
  function SetEraserRadius(d: VirtualDrawing, radius: real): (r: VirtualDrawing)
    ensures 0.0 <= radius ==> 0 <= r.eraserRadius && r.eraserRadius as real <= radius < r.eraserRadius as real + 1.0
    ensures radius < 0.0 ==> r.eraserRadius <= 0 && r.eraserRadius as real - 1.0 < radius <= r.eraserRadius as real
    ensures r.(eraserRadius := d.eraserRadius) == d
    ensures Valid(d) ==> Valid(r)
  {
    d.(eraserRadius := Trunc(radius))
  }

  /** Toggling twice gives back the same drawing. */
  lemma ToggleTwice(d: VirtualDrawing)
    ensures ToggleEraserMode(ToggleEraserMode(d)) == d
  {
  }

  /** Advancing the colour once per palette entry comes back to the start. */
  lemma NextColorCycle(d: VirtualDrawing)
    requires ColorConsistent(d)
    ensures NextColor(NextColor(NextColor(d))) == d
  {
  }

  /** An undo straight after a clear changes nothing. */
  lemma UndoAfterClear(d: VirtualDrawing)
    ensures Undo(ClearCanvas(d)) == ClearCanvas(d)
  {
  }

  /** Undo is the inverse of a stroke, provided the history already held a
      snapshot before the stroke. */
  lemma UndoAfterDrawLine(d: VirtualDrawing, start: Point, end: Point)
    requires Valid(d) && 1 <= |d.history|
    ensures Undo(DrawLine(d, start, end)) == d
  {
  }

  /** The first stroke after a clear can never be undone: the history then
      holds a single snapshot, and undo needs two. */
  lemma FirstStrokeStays(d: VirtualDrawing, start: Point, end: Point)
    requires d.history == []
    ensures Undo(DrawLine(d, start, end)) == DrawLine(d, start, end)
  {
  }

  /** `k` undos in a row. */
  function UndoTimes(d: VirtualDrawing, k: nat): VirtualDrawing
  {
    if k == 0 then d else Undo(UndoTimes(d, k - 1))
  }

  /** Repeated undos walk the canvas back one segment at a time, but never
      past the first segment since the last clear. */
  lemma {:induction false} UndoTimesKeepsPrefix(d: VirtualDrawing, k: nat)
    requires Valid(d) && 1 <= |d.history|
    ensures var m := if k < |d.history| then |d.history| - k else 1;
            var u := UndoTimes(d, k);
            Valid(u) && u.canvas == d.canvas[..m] && u.history == d.history[..m]
  {
    if k == 0 {
      assert d.canvas[..|d.history|] == d.canvas;
      assert d.history[..|d.history|] == d.history;
    } else {
      UndoTimesKeepsPrefix(d, k - 1);
      var u := UndoTimes(d, k - 1);
      var m := if k - 1 < |d.history| then |d.history| - (k - 1) else 1;
      if 1 < m {
        assert u.history[m - 2] == u.canvas[..m - 1];
      }
    }
  }
}
